=== FILE: README.md ===
# Dividend and 8-K extraction: a Dafny model of its selection rules

`extract_dividends.py` reads a list of symbols, asks the Twelve Data API for
each symbol's metadata, its 8-K filings and its dividend calendar, downloads
the `.htm` documents of each filing and keeps those whose text mentions a
dividend. It writes one entry per symbol that has metadata, at least one
matching filing and at least one dividend. This project models the decision
logic of that script and proves what it keeps, in which order, and when it
raises. The logic covers:

- which rows of `symbols.csv` are used;
- which record of the metadata response is read, and the exchange fallback;
- which filings and documents survive the `.htm` filter, the viewer-URL
  rewrite and the keyword check;
- which dividend records are reported;
- when a symbol yields a result, and how the run counts its outcomes.

The model is split into these modules:

- `Wrappers`: `Option` and `Result`.
- `Text`: the Python string operations used, restricted to ASCII. These are
  `strip`, `endswith`, `in`, `lower` and `replace`.
- `Json`: decoded JSON responses, with Python's truthiness, `k in v`,
  `v[k]`, `v.get(k, d)` and `for x in v`. Each of these returns the
  exception Python raises when the value has the wrong shape.
- `Select`: the list loop every stage uses. `Sift` runs a keep, skip or
  raise step over a list, and the first raise wins. `SelectedBy` describes
  its result independently: the projections of exactly the elements that
  satisfy a predicate, in input order.
- `Extract`: the script's functions. The remote API is a parameter
  `api: Request -> Value`, where `Null` is a failed request. The document
  download is `download: string -> Option<string>`, where `None` is any
  download failure. The date formatting of `filed_at` is
  `stamp: real -> string`.
- `Scenario`: one symbol traced end to end through the model, with concrete
  responses.

Two behaviours of the code shape the model. First, `process_symbol` returns
a result only when the metadata, the filings and the dividends are all
non-empty (extract_dividends.py:312-327), so a symbol with no matching
filing or no dividend is counted as failed. Second, the API key is read
inside `make_api_request` and a missing key raises there
(extract_dividends.py:81-82); `main` catches that exception per symbol
(extract_dividends.py:401-404), so every symbol fails and the run still
completes.

An exception raised while processing a symbol is an `Err`. The run loop
counts it as a failed symbol, exactly like a symbol that yields nothing.

## Model

| member | source | states |
|---|---|---|
| Extract.LoadSymbols | extract_dividends.py:66-76 | the symbol list fails exactly when some row lacks one of the two cells (`.strip()` on `None`); every pair it returns is non-empty and has no leading or trailing whitespace |
| Extract.LoadSymbolsSelects | extract_dividends.py:71-76 | when every row has both cells, the list is the stripped pairs of exactly the rows whose two cells both contain a non-whitespace character, in file order |
| Text.StripEmptyIffBlank | extract_dividends.py:72-74 | a stripped cell is empty exactly when the cell is all whitespace, which is what the `if symbol and exchange` test decides |
| Text.Strip | extract_dividends.py:72-73 | the stripped cell is a slice of the cell with only whitespace outside it, and it neither starts nor ends with whitespace |
| Extract.GetSymbolInfo | extract_dividends.py:133-147 | no info for a falsy response or a missing or falsy `data`. Otherwise the record read is `data[0]` for a list and `data` itself otherwise, and a record that is not a dict raises. `exchange` is the record's own `exchange` when present and the listed exchange when not. A response that is not a dict never yields info |
| Json.Lookup | extract_dividends.py:142-143 | a dict read finds a value exactly when the key is present, and the value found is bound to that key |
| Extract.ContentCheck | extract_dividends.py:228-267 | a download that fails in any way (a request error, an error status or any other exception) never matches; a page that arrives matches exactly when some slice of it spells `dividend` in any mixture of cases |
| Extract.KeywordAnyCase | extract_dividends.py:252-253 | a page matches exactly when some slice of it spells `dividend` in any mixture of upper and lower case |
| Extract.KeywordInContext | extract_dividends.py:252-253 | a page containing a matching passage matches whatever text surrounds the passage |
| Extract.KeywordExamples | extract_dividends.py:252-253 | `DIVIDEND` and `Dividend Declared` match and `divided` does not |
| Text.Lower | extract_dividends.py:252 | the lowered page has the same length and no ASCII capital left, and a character differs from the original only where the original had a capital, which became its small letter |
| Text.ContainsInContext | extract_dividends.py:253 | a substring occurrence survives adding text on either side |
| Extract.HtmFile | extract_dividends.py:180 | the `.htm` filter raises exactly when the entry is not a dict or its `url` is not a string. Otherwise it keeps the entry unchanged exactly when the URL ends in `.htm` |
| Extract.MatchFile | extract_dividends.py:189-204 | the document check raises exactly when the entry is not a dict or its `url` is truthy but not a string. Otherwise it keeps a document exactly when the URL is non-empty and its rewritten form passes the content check, and the document kept is the rewritten URL with the entry's `type` (default `''`) |
| Extract.FiledAt | extract_dividends.py:212-213 | a falsy timestamp gives the empty date; a number, or `True` read as 1, gives its formatted date; any other truthy value raises |
| Extract.RewriteUnchanged | extract_dividends.py:194 | a URL without `/ix?doc=/Archives` is left unchanged |
| Extract.RewriteFirstViewerPath | extract_dividends.py:194 | the first `/ix?doc=/Archives` of a URL becomes `/Archives`, and the rewrite carries on after it |
| Text.ReplaceAllAbsent | extract_dividends.py:194 | `str.replace` leaves a string without the pattern unchanged |
| Text.ReplaceAllFirst | extract_dividends.py:194 | `str.replace` replaces the first occurrence and resumes scanning right after it |
| Extract.RewriteKeepsHtm | extract_dividends.py:180-194 | rewriting a URL that ends in `.htm` yields a URL that still ends in `.htm` |
| Extract.MatchedHtmFile | extract_dividends.py:180-204 | a document kept by the `.htm` filter and then by the content check has an `.htm` URL, and that URL passed the check |
| Extract.MatchedDocuments | extract_dividends.py:179-208 | every document kept from a filing has a URL ending in `.htm` whose download mentions a dividend |
| Extract.ScanReport | extract_dividends.py:172-222 | a report without `files` is skipped. A kept report has a non-empty list of documents, each with an `.htm` URL that passed the content check |
| Extract.MatchedDocumentsSelects | extract_dividends.py:180-204 | the documents kept from a filing are the `{url, type}` forms of exactly its entries that are dicts with a string `url` ending in `.htm` whose rewritten form passes the content check, in the filing's order |
| Extract.MatchedDocumentsRaises | extract_dividends.py:180-204 | the two document loops raise exactly when some entry is not a dict or has a `url` that is not a string (`.get` or `.endswith` fails), whatever the downloads return |
| Extract.ScanReportKeepsMatching | extract_dividends.py:175-222 | conversely, a report whose `files` hold at least one such entry is kept unless reading it raises |
| Extract.ScanReportSelects | extract_dividends.py:179-219 | a kept filing lists, as `{url, type}` in the report's order, exactly the documents whose URL ends in `.htm` and whose rewritten URL passed the check, and at least one document did. Its `url` is the report's `filing_url` (default `''`), and its `filed_at` is the date formatted from the report's `filed_at` (default `0`) |
| Extract.ScanReportDateRaises | extract_dividends.py:210-213 | a report with matching documents whose `filed_at` is truthy but not a number raises the error `fromtimestamp` raises, so the symbol fails |
| Extract.WellFormedReportOk | extract_dividends.py:175-219 | a report never raises when it is a dict, its `files` is absent or a list of such entries, and its `filed_at` is falsy, a number or a bool; so `ScanReportKeepsMatching` keeps every such report that has a matching document |
| Extract.GetSecReports | extract_dividends.py:162-225 | no filings for a falsy response or a dict without `values`, and none for any response that is not a dict (it either yields `[]` or raises); every filing returned has at least one document, and each document has an `.htm` URL that passed the content check |
| Extract.SecReportsSelects | extract_dividends.py:171-222 | when the response's `values` can be iterated and nothing raises, no report raised and the filings are those of exactly the reports the loop keeps, in response order |
| Extract.WellFormedFilingsOk | extract_dividends.py:162-222 | a filings response never raises when it is a dict whose `values` is absent or a list of such reports |
| Extract.SecReportsFetchOnlyHtm | extract_dividends.py:180-200 | the content check is only ever run on `.htm` URLs: two downloads that agree on every `.htm` URL give the same filings |
| Extract.ScanReportFetchesOnlyHtm | extract_dividends.py:175-200 | the same for one report |
| Extract.MatchedDocumentsFetchOnlyHtm | extract_dividends.py:180-204 | the same for the documents of one report |
| Extract.MatchFileFetchesOnlyHtm | extract_dividends.py:189-204 | the same for one `.htm` document |
| Extract.GetDividends | extract_dividends.py:281-303 | no dividends for a response that is not a list. A list raises exactly when one of its elements is not a dict (`.get` on it), and otherwise yields at most as many dividends as records |
| Extract.DividendsSelects | extract_dividends.py:288-298 | the dividends are the `{ex_date, amount}` projections of exactly the records whose `symbol` is the requested one, in response order |
| Extract.ProcessSymbol | extract_dividends.py:306-340 | no result when there is no symbol info. There is a result exactly when the info, the filings and the dividends are all present and non-empty, with the later requests using the info's exchange. The result carries the ticker, the info's name and exchange, and exactly those filings and dividends |
| Extract.Attempted | extract_dividends.py:379-382 | the attempted symbols are always a prefix of the list: exactly the first `limit` when `0 < limit < len(symbols)`, and the whole list when the limit is not positive or not smaller than the list |
| Select.Tally | extract_dividends.py:385-404 | successes plus failures equals the symbols attempted, and the results are the outcomes of exactly the successful symbols, in order |
| Extract.RunBatch | extract_dividends.py:379-404 | `successful + failed` is the number of symbols attempted, at most `limit` when it is positive. `len(results) == successful`, and the results are the per-symbol results of exactly the symbols that yielded one, in list order |
| Select.SiftErr | extract_dividends.py:71-75 | a loop over a list raises exactly when its body raises on some element, and it raises the error of the first such element |
| Select.SiftOk | extract_dividends.py:289 | a loop that does not raise keeps at most one value per element, each the value the step kept for some element |
| Select.SiftKeeps | extract_dividends.py:189-204 | every value a loop keeps has a property when every value its step keeps has it |
| Select.SiftSelects | extract_dividends.py:289 | a loop whose step keeps the projection of exactly the elements satisfying a predicate, and never raises, returns exactly that selection in order |
| Select.SiftThenSift | extract_dividends.py:180-189 | filtering a list and then looping over what is left equals one loop applying both steps to each element |
| Select.SiftCongruent | extract_dividends.py:189-204 | two loop steps that agree on every element give the same outcome |
| Select.PositionsComplete | extract_dividends.py:289 | every element satisfying the filter has its index among the selected positions |
| Scenario.ViewerUrlRewritten | extract_dividends.py:194 | `/ix?doc=/Archives/a8k.htm` is rewritten to `/Archives/a8k.htm` |
| Scenario.PageMatches | extract_dividends.py:252-253 | a page declaring a quarterly `Dividend` matches |
| Scenario.ReportKept | extract_dividends.py:172-219 | a report with one matching viewer-link document is kept, with the rewritten URL and the formatted date |
| Scenario.OneFiling | extract_dividends.py:162-225 | that response yields exactly one filing |
| Scenario.OneDividend | extract_dividends.py:281-303 | a calendar with one record of the symbol yields exactly its `{ex_date, amount}` |
| Scenario.OneSymbolEndToEnd | extract_dividends.py:306-340 | the symbol yields one result with the metadata's name and exchange, one filing and one dividend |

## Left out

- `make_api_request` (network, logging, the API key) is the `api` parameter. A missing API key raises `ValueError` inside each symbol's processing, and `main` catches it per symbol, so every symbol fails. The model does not represent the key.
- `check_dividend_content`: the HTTP download, the Faker user agent and the one-second delay are the `download` parameter. Any exception there makes the check false, which is `None`.
- `datetime.fromtimestamp(...).strftime` is the total function `stamp`. Timestamps it cannot convert (out of range) would raise inside the symbol's processing; that case is not modelled.
- The `api` and `download` functions are deterministic. A live API can answer the same request differently twice.
- Argument parsing, date validation, `load_dotenv`, logging setup, the output file and the return codes are configuration and I/O. Reading `symbols.csv` is also left out: the model starts from the rows `csv.DictReader` yields, and a missing column (`KeyError`) and a short row (`.strip()` on `None`) are both a missing cell.
- An error from `LoadSymbols` is not caught per symbol: in the script it escapes `main`. The model stops at returning the error.
- `str.lower`, `str.strip` and `str.isspace` are modelled on ASCII only; non-ASCII case folding and Unicode whitespace are not.
- JSON numbers are reals; Python's int/float distinction, NaN and infinities are not modelled. `True` read as a timestamp counts as `1`, as in Python.
- `Json.Lookup` returns the first binding of a key; Python's decoder keeps the last. The model assumes responses without duplicate keys.
- Dividend amounts and the `type` and `url` fields are passed through as JSON values; no arithmetic is done on them.
- test_setup.py is an environment diagnostic (file checks and a live HTTP call) and is not part of this model.

=== FILE: extract.dfy ===
/**
 The decision logic of extract_dividends.py: which rows of the symbol list are
 used, which record of the metadata response is read, which filings and
 documents are kept, how the content of a document is classified, which
 dividend records are reported, when a symbol yields a result and how the run
 counts its outcomes.

 The remote API, the document download and the date formatting are
 parameters: `api` maps a request to the decoded response (`Null` when the
 request failed), `download` maps a URL to the page text (`None` when the
 download failed in any way), `stamp` formats a POSIX timestamp as a date.
 */
module Extract {
  import opened Wrappers
  import opened Json
  import opened Text
  import opened Select

  /** One data row of symbols.csv as `csv.DictReader` yields it; a cell is
      `None` when the row has no value for that column. */
  datatype CsvRow = CsvRow(symbolTicker: Option<string>, exchange: Option<string>)

  /** A symbol to process, with the exchange the symbol list gives for it. */
  datatype Listing = Listing(symbol: string, exchange: string)

  /** What the metadata lookup yields: the fields are whatever the response
      holds, so they are JSON values rather than strings. */
  datatype SymbolInfo = SymbolInfo(name: Value, exchange: Value)

  datatype FilingDocument = FilingDocument(url: string, docType: Value)

  datatype Filing = Filing(url: Value, filedAt: string, files: seq<FilingDocument>)

  datatype Dividend = Dividend(exDate: Value, amount: Value)

  datatype SymbolResult = SymbolResult(
    ticker: string,
    instrumentName: Value,
    exchange: Value,
    dividends: seq<Dividend>,
    secReports: seq<Filing>)

  /** The three API calls, with the parameters the script sends (the API key
      is added by the request helper and is not part of the model). */
  datatype Request =
    | StocksRequest(symbol: string, listedExchange: string)
    | FilingsRequest(symbol: string, filledFrom: string, filledTo: string, exchange: Value, formType: string)
    | DividendsRequest(symbol: string, startDate: string, endDate: string, exchange: Value)

  type Api = Request -> Value
  type Download = string -> Option<string>
  type Stamp = real -> string

  const FormType := "8-K"
  const Keyword := "dividend"
  const HtmSuffix := ".htm"
  const ViewerPath := "/ix?doc=/Archives"
  const ArchivePath := "/Archives"

  // ---------------------------------------------------------------------------
  // Symbol list
  // ---------------------------------------------------------------------------

  /** The loop body of `load_symbols`: strip both cells and keep the pair when
      neither is empty. `.strip()` on a missing cell raises. */
  function RowStep(row: CsvRow): Result<Option<Listing>, PyError> {
    match (row.symbolTicker, row.exchange)
    case (None, _) => Err(AttributeError)
    case (Some(_), None) => Err(AttributeError)
    case (Some(ticker), Some(exchange)) =>
      var symbol := Strip(ticker);
      var venue := Strip(exchange);
      if symbol != [] && venue != [] then Ok(Some(Listing(symbol, venue))) else Ok(None)
  }

  function LoadSymbols(rows: seq<CsvRow>): (r: Result<seq<Listing>, PyError>)
    ensures r.Err? <==> exists i :: 0 <= i < |rows| && (rows[i].symbolTicker.None? || rows[i].exchange.None?)
    ensures r.Ok? ==> forall l :: l in r.value ==> Trimmed(l.symbol) && Trimmed(l.exchange)
  {
    SiftErr(rows, RowStep);
    SiftOk(rows, RowStep);
    Sift(rows, RowStep)
  }

  /** Non-empty, and neither starting nor ending with whitespace. */
  predicate Trimmed(s: string) {
    s != [] && !IsSpace(s[0]) && !IsSpace(s[|s| - 1])
  }

  /** A row is used when both cells are present and neither is all whitespace. */
  predicate Listed(row: CsvRow) {
    && row.symbolTicker.Some? && !AllSpace(row.symbolTicker.value)
    && row.exchange.Some? && !AllSpace(row.exchange.value)
  }

  function ListingOf(row: CsvRow): Listing {
    Listing(Strip(row.symbolTicker.GetOr("")), Strip(row.exchange.GetOr("")))
  }

  /** When no row lacks a cell, the symbol list is exactly the stripped pairs
      of the rows whose two cells both hold a non-whitespace character, in file
      order. */
  lemma LoadSymbolsSelects(rows: seq<CsvRow>)
    requires forall i :: 0 <= i < |rows| ==> rows[i].symbolTicker.Some? && rows[i].exchange.Some?
    ensures LoadSymbols(rows).Ok?
    ensures SelectedBy(rows, LoadSymbols(rows).value, Listed, ListingOf)
  {
    forall i | 0 <= i < |rows|
      ensures RowStep(rows[i]) == (if Listed(rows[i]) then Ok(Some(ListingOf(rows[i]))) else Ok(None))
    {
      StripEmptyIffBlank(rows[i].symbolTicker.value);
      StripEmptyIffBlank(rows[i].exchange.value);
    }
    SiftSelects(rows, RowStep, Listed, ListingOf);
  }

  // ---------------------------------------------------------------------------
  // Symbol metadata
  // ---------------------------------------------------------------------------

  /** The record the metadata lookup reads, when the response has one: the
      first element of a list payload, or the payload itself. */
  function ChosenRecord(data: Value): Option<Value> {
    var payload := Field(data, "data", Null);
    if data.Obj? && Truthy(payload) then Some(if payload.Arr? then payload.items[0] else payload)
    else None
  }

  /** `get_symbol_info`: read the first element of a list payload, or the
      payload itself, and fall back to the listed exchange. */
  function GetSymbolInfo(symbol: string, exchange: string, api: Api): (r: Result<Option<SymbolInfo>, PyError>)
    ensures var data := api(StocksRequest(symbol, exchange));
            !Truthy(data) || (data.Obj? && !Truthy(Field(data, "data", Null))) ==> r == Ok(None)
    ensures var record := ChosenRecord(api(StocksRequest(symbol, exchange)));
            record.Some? ==>
              if record.value.Obj? then
                r == Ok(Some(SymbolInfo(Field(record.value, "name", Str("")), Field(record.value, "exchange", Str(exchange)))))
              else r == Err(AttributeError)
    ensures var data := api(StocksRequest(symbol, exchange));
            !data.Obj? ==> r.Ok? ==> r.value.None?
    ensures r.Ok? && r.value.Some? ==>
              var record := ChosenRecord(api(StocksRequest(symbol, exchange)));
              && record.Some? && record.value.Obj?
              && match Lookup(record.value.members, "exchange")
                 case None => r.value.value.exchange == Str(exchange)
                 case Some(v) => r.value.value.exchange == v
  {
    var data := api(StocksRequest(symbol, exchange));
    if !Truthy(data) then Ok(None)
    else
      var present :- HasKey(data, "data");
      if !present then Ok(None)
      else
        var payload :- Subscript(data, "data");
        if !Truthy(payload) then Ok(None)
        else
          var record := if payload.Arr? then payload.items[0] else payload;
          var name :- Get(record, "name", Str(""));
          var venue :- Get(record, "exchange", Str(exchange));
          Ok(Some(SymbolInfo(name, venue)))
  }

  // ---------------------------------------------------------------------------
  // Keyword test on documents
  // ---------------------------------------------------------------------------

  /** The test in `check_dividend_content`: the lower-cased text contains the keyword. */
  predicate HasKeyword(text: string) {
    Contains(Lower(text), Keyword)
  }

  /** `check_dividend_content`: a failed download never matches. */
  predicate ContentMatches(download: Download, url: string) {
    match download(url)
    case Some(text) => HasKeyword(text)
    case None => false
  }

  /** `check_dividend_content` as a whole: a download that fails in any way
      never matches; a page that arrives matches exactly when some slice of
      it spells the keyword in any letter case. */
  lemma ContentCheck(download: Download, url: string)
    ensures download(url).None? ==> !ContentMatches(download, url)
    ensures download(url).Some? ==>
              (ContentMatches(download, url) <==> exists i :: SpellsKeyword(download(url).value, i))
  {
    if download(url).Some? {
      KeywordAnyCase(download(url).value);
    }
  }

  /** The text matches exactly when some slice of it spells the keyword in
      any mixture of upper and lower case. */
  lemma KeywordAnyCase(text: string)
    ensures HasKeyword(text) <==> exists i :: SpellsKeyword(text, i)
  {
    if HasKeyword(text) {
      var i :| 0 <= i <= |text| - |Keyword| && OccursAt(Lower(text), Keyword, i);
      assert Lower(text[i..i + |Keyword|]) == Lower(text)[i..i + |Keyword|];
      assert SpellsKeyword(text, i);
    }
    if exists i :: SpellsKeyword(text, i) {
      var i :| SpellsKeyword(text, i);
      assert Lower(text)[i..i + |Keyword|] == Lower(text[i..i + |Keyword|]);
      assert OccursAt(Lower(text), Keyword, i);
    }
  }

  /** The slice of `text` at `i` is the keyword up to letter case. */
  predicate SpellsKeyword(text: string, i: int) {
    0 <= i <= |text| - |Keyword| && Lower(text[i..i + |Keyword|]) == Keyword
  }

  /** A page that contains a matching passage matches whatever surrounds it. */
  lemma KeywordInContext(before: string, passage: string, after: string)
    requires HasKeyword(passage)
    ensures HasKeyword(before + passage + after)
  {
    LowerConcat(before + passage, after);
    LowerConcat(before, passage);
    ContainsInContext(Lower(before), Lower(passage), Lower(after), Keyword);
  }

  lemma KeywordExamples()
    ensures HasKeyword("DIVIDEND")
    ensures HasKeyword("Dividend Declared")
    ensures !HasKeyword("divided")
  {
    assert Lower("DIVIDEND") == Keyword;
    assert OccursAt(Lower("DIVIDEND"), Keyword, 0);
    assert Lower("Dividend Declared")[0..8] == Keyword;
    assert OccursAt(Lower("Dividend Declared"), Keyword, 0);
  }

  // ---------------------------------------------------------------------------
  // Filings
  // ---------------------------------------------------------------------------

  /** The URL rewrite that turns an inline-viewer link into the archive link. */
  function Rewrite(url: string): string {
    ReplaceAll(url, ViewerPath, ArchivePath)
  }

  /** A URL without the viewer path is left as it is. */
  lemma RewriteUnchanged(url: string)
    requires !Contains(url, ViewerPath)
    ensures Rewrite(url) == url
  {
    ReplaceAllAbsent(url, ViewerPath, ArchivePath);
  }

  /** The first viewer path of a URL becomes the archive path and the rewrite
      carries on after it. */
  lemma RewriteFirstViewerPath(before: string, after: string)
    requires forall i :: 0 <= i < |before| ==> !OccursAt(before + ViewerPath + after, ViewerPath, i)
    ensures Rewrite(before + ViewerPath + after) == before + ArchivePath + Rewrite(after)
  {
    ReplaceAllFirst(before, ViewerPath, after, ArchivePath);
  }

  /** The rewrite never removes a `.htm` ending: the viewer path cannot
      overlap the last four characters of a URL that ends in `.htm`. */
  lemma {:induction false} RewriteKeepsHtm(url: string)
    requires EndsWith(url, HtmSuffix)
    ensures EndsWith(Rewrite(url), HtmSuffix)
    decreases |url|
  {
    var n := |ViewerPath|;
    if |url| >= n {
      if url[..n] == ViewerPath {
        ViewerPathBeforeSuffix(url);
        var rest := url[n..];
        SuffixOfTail(url, n);
        RewriteKeepsHtm(rest);
        assert Rewrite(url) == ArchivePath + Rewrite(rest);
        SuffixAfterPrefix(ArchivePath, Rewrite(rest));
      } else {
        var rest := url[1..];
        SuffixOfTail(url, 1);
        RewriteKeepsHtm(rest);
        assert Rewrite(url) == [url[0]] + Rewrite(rest);
        SuffixAfterPrefix([url[0]], Rewrite(rest));
      }
    }
  }

  /** A URL that starts with the viewer path and ends in `.htm` is longer
      than both together: the viewer path has no dot. */
  lemma ViewerPathBeforeSuffix(url: string)
    requires EndsWith(url, HtmSuffix)
    requires |url| >= |ViewerPath| && url[..|ViewerPath|] == ViewerPath
    ensures |url| - |HtmSuffix| >= |ViewerPath|
  {
    assert forall k :: 0 <= k < |ViewerPath| ==> ViewerPath[k] != '.';
    assert url[|url| - 4] == HtmSuffix[0];
    assert forall k :: 0 <= k < |ViewerPath| ==> url[k] == ViewerPath[k];
  }

  lemma SuffixOfTail(url: string, j: nat)
    requires EndsWith(url, HtmSuffix) && j <= |url| - |HtmSuffix|
    ensures EndsWith(url[j..], HtmSuffix)
  {
    assert url[j..][|url[j..]| - |HtmSuffix|..] == url[|url| - |HtmSuffix|..];
  }

  lemma SuffixAfterPrefix(prefix: string, rest: string)
    requires EndsWith(rest, HtmSuffix)
    ensures EndsWith(prefix + rest, HtmSuffix)
  {
    assert (prefix + rest)[|prefix + rest| - |HtmSuffix|..] == rest[|rest| - |HtmSuffix|..];
  }

  /** The comprehension that picks the `.htm` documents of a filing;
      `.endswith` on a URL that is not a string raises. */
  function HtmFile(f: Value): (r: Result<Option<Value>, PyError>)
    ensures r.Err? <==> !f.Obj? || !Field(f, "url", Str("")).Str?
    ensures r.Ok? ==> (r.value.Some? <==> EndsWith(UrlText(f), HtmSuffix))
    ensures r.Ok? && r.value.Some? ==> r.value.value == f
  {
    var url :- Get(f, "url", Str(""));
    match url
    case Str(u) => Ok(if EndsWith(u, HtmSuffix) then Some(f) else None)
    case _ => Err(AttributeError)
  }

  /** The loop body over the `.htm` documents: rewrite the URL, run the
      content check on it, keep `{url, type}` on a match. */
  function MatchFile(f: Value, download: Download): (r: Result<Option<FilingDocument>, PyError>)
    ensures r.Err? <==> !f.Obj? || (Truthy(Field(f, "url", Str(""))) && !Field(f, "url", Str("")).Str?)
    ensures r.Ok? ==> (r.value.Some? <==> UrlText(f) != [] && ContentMatches(download, Rewrite(UrlText(f))))
    ensures r.Ok? && r.value.Some? ==> r.value.value == DocumentOf(f)
  {
    var url :- Get(f, "url", Str(""));
    if !Truthy(url) then Ok(None)
    else
      match url
      case Str(u) =>
        var target := Rewrite(u);
        // `f` is a dict here (its `get` just succeeded), so `get('type')` cannot raise
        if ContentMatches(download, target) then Ok(Some(FilingDocument(target, Field(f, "type", Str("")))))
        else Ok(None)
      case _ => Err(AttributeError)
  }

  /** The `filed_at` date: empty for a falsy timestamp, formatted otherwise
      (`True` counts as the number 1); anything but a number raises. */
  function FiledAt(timestamp: Value, stamp: Stamp): (r: Result<string, PyError>)
    ensures r.Err? <==> Truthy(timestamp) && !timestamp.Num? && !timestamp.Bool?
    ensures !Truthy(timestamp) ==> r == Ok("")
    ensures timestamp.Num? && Truthy(timestamp) ==> r == Ok(stamp(timestamp.n))
    ensures timestamp == Bool(true) ==> r == Ok(stamp(1.0))
  {
    if !Truthy(timestamp) then Ok("")
    else
      match timestamp
      case Num(n) => Ok(stamp(n))
      case Bool(_) => Ok(stamp(1.0))
      case _ => Err(TypeError)
  }

  /** The two loops over a filing's documents: keep the `.htm` ones, then
      those whose rewritten URL passes the content check, as `{url, type}`. */
  function MatchedDocuments(entries: seq<Value>, download: Download): (r: Result<seq<FilingDocument>, PyError>)
    ensures r.Ok? ==> forall d :: d in r.value ==> EndsWith(d.url, HtmSuffix) && ContentMatches(download, d.url)
  {
    var htm :- Sift(entries, HtmFile);
    if |htm| == 0 then Ok([])
    else
      var matched :- Sift(htm, f => MatchFile(f, download));
      HtmFilterKeeps(entries);
      HtmMatchesEndInHtm(htm, matched, download);
      Ok(matched)
  }

  /** One iteration of the report loop of `get_sec_reports`. */
  function ScanReport(report: Value, download: Download, stamp: Stamp): (r: Result<Option<Filing>, PyError>)
    ensures HasKey(report, "files") == Ok(false) ==> r == Ok(None)
    ensures r.Ok? && r.value.Some? ==>
              && |r.value.value.files| > 0
              && forall d :: d in r.value.value.files ==> EndsWith(d.url, HtmSuffix) && ContentMatches(download, d.url)
  {
    var hasFiles :- HasKey(report, "files");
    if !hasFiles then Ok(None)
    else
      var files :- Subscript(report, "files");
      var entries :- Iterate(files);
      var matched :- MatchedDocuments(entries, download);
      if |matched| == 0 then Ok(None)
      else
        var timestamp :- Get(report, "filed_at", Num(0.0));
        var filedAt :- FiledAt(timestamp, stamp);
        var url :- Get(report, "filing_url", Str(""));
        Ok(Some(Filing(url, filedAt, matched)))
  }

  /** Every document kept from a list of `.htm` documents has an `.htm` URL
      that passed the content check. */
  lemma HtmMatchesEndInHtm(htm: seq<Value>, matched: seq<FilingDocument>, download: Download)
    requires forall i :: 0 <= i < |htm| ==> EndsWith(UrlText(htm[i]), HtmSuffix)
    requires Sift(htm, f => MatchFile(f, download)) == Ok(matched)
    ensures forall d :: d in matched ==> EndsWith(d.url, HtmSuffix) && ContentMatches(download, d.url)
  {
    var step := f => MatchFile(f, download);
    forall i | 0 <= i < |htm| && step(htm[i]).Ok? && step(htm[i]).value.Some?
      ensures EndsWith(step(htm[i]).value.value.url, HtmSuffix) && ContentMatches(download, step(htm[i]).value.value.url)
    {
      MatchedHtmFile(htm[i], step(htm[i]).value.value, download);
    }
    SiftKeeps(htm, step, (d: FilingDocument) => EndsWith(d.url, HtmSuffix) && ContentMatches(download, d.url));
  }

  /** A document kept by the `.htm` filter and then by the content check has
      an `.htm` URL that passed the check. */
  lemma MatchedHtmFile(f: Value, d: FilingDocument, download: Download)
    requires EndsWith(UrlText(f), HtmSuffix)
    requires MatchFile(f, download) == Ok(Some(d))
    ensures EndsWith(d.url, HtmSuffix) && ContentMatches(download, d.url)
  {
    RewriteKeepsHtm(UrlText(f));
  }

  /** The documents a filing keeps: an object whose `url` is a string ending
      in `.htm` whose rewritten form passes the content check. */
  predicate MatchingDocument(f: Value, download: Download) {
    f.Obj? &&
    match Lookup(f.members, "url")
    case Some(Str(u)) => EndsWith(u, HtmSuffix) && ContentMatches(download, Rewrite(u))
    case _ => false
  }

  function UrlText(f: Value): string {
    match Field(f, "url", Str(""))
    case Str(u) => u
    case _ => ""
  }

  function DocumentOf(f: Value): FilingDocument {
    FilingDocument(Rewrite(UrlText(f)), Field(f, "type", Str("")))
  }

  /** The two loops over a filing's documents, as one step per document. */
  lemma DocumentStep(f: Value, download: Download)
    requires HtmFile(f).Ok?
    ensures Then(HtmFile, g => MatchFile(g, download))(f)
            == (if MatchingDocument(f, download) then Ok(Some(DocumentOf(f))) else Ok(None))
  {
  }

  /** The documents kept from a filing are the `{url, type}` forms of exactly
      its matching documents, in the filing's order. */
  lemma MatchedDocumentsSelects(entries: seq<Value>, download: Download)
    requires MatchedDocuments(entries, download).Ok?
    ensures SelectedBy(entries, MatchedDocuments(entries, download).value,
                       f => MatchingDocument(f, download), DocumentOf)
  {
    var step := Then(HtmFile, g => MatchFile(g, download));
    SiftErr(entries, HtmFile);
    SiftThenSift(entries, HtmFile, g => MatchFile(g, download));
    forall i | 0 <= i < |entries|
      ensures step(entries[i]) == (if MatchingDocument(entries[i], download) then Ok(Some(DocumentOf(entries[i]))) else Ok(None))
    {
      DocumentStep(entries[i], download);
    }
    SiftSelects(entries, step, f => MatchingDocument(f, download), DocumentOf);
  }

  /** A document entry the two loops can read: a dict whose `url`, when
      present, is a string. */
  predicate WellFormedDocument(f: Value) {
    f.Obj? && Field(f, "url", Str("")).Str?
  }

  /** The document loops raise exactly when some entry is not well formed. */
  lemma MatchedDocumentsRaises(entries: seq<Value>, download: Download)
    ensures MatchedDocuments(entries, download).Err? <==>
              exists i :: 0 <= i < |entries| && !WellFormedDocument(entries[i])
  {
    SiftErr(entries, HtmFile);
    if Sift(entries, HtmFile).Ok? {
      var htm := Sift(entries, HtmFile).value;
      HtmFilterKeeps(entries);
      var step := f => MatchFile(f, download);
      forall i | 0 <= i < |htm| ensures step(htm[i]).Ok? {
        assert HtmFile(htm[i]).Ok?;
      }
      SiftErr(htm, step);
    }
  }

  /** A report the report loop can read: a dict whose `files`, when present,
      is a list of well-formed documents, and whose `filed_at` is falsy, a
      number or a bool. */
  predicate WellFormedReport(report: Value) {
    && report.Obj?
    && (match Lookup(report.members, "files")
        case Some(files) => files.Arr? && forall i :: 0 <= i < |files.items| ==> WellFormedDocument(files.items[i])
        case None => true)
    && var timestamp := Field(report, "filed_at", Num(0.0));
       !Truthy(timestamp) || timestamp.Num? || timestamp.Bool?
  }

  /** A well-formed report never raises, whatever the downloads return. */
  lemma WellFormedReportOk(report: Value, download: Download, stamp: Stamp)
    requires WellFormedReport(report)
    ensures ScanReport(report, download, stamp).Ok?
  {
    if Lookup(report.members, "files").Some? {
      var files := Lookup(report.members, "files").value;
      assert Subscript(report, "files") == Ok(files);
      MatchedDocumentsRaises(files.items, download);
      assert Get(report, "filed_at", Num(0.0)) == Ok(Field(report, "filed_at", Num(0.0)));
    }
  }

  /** A kept filing lists exactly the `.htm` documents of the report whose
      rewritten URL passed the content check, as `{url, type}` and in the
      report's order; so a filing is kept only if one of its documents matched. */
  lemma ScanReportSelects(report: Value, download: Download, stamp: Stamp)
    requires ScanReport(report, download, stamp).Ok? && ScanReport(report, download, stamp).value.Some?
    ensures report.Obj? && Iterate(Field(report, "files", Null)).Ok?
    ensures var entries := Iterate(Field(report, "files", Null)).value;
            var filing := ScanReport(report, download, stamp).value.value;
            && SelectedBy(entries, filing.files, f => MatchingDocument(f, download), DocumentOf)
            && exists i :: 0 <= i < |entries| && MatchingDocument(entries[i], download)
    ensures var filing := ScanReport(report, download, stamp).value.value;
            && filing.url == Field(report, "filing_url", Str(""))
            && FiledAt(Field(report, "filed_at", Num(0.0)), stamp) == Ok(filing.filedAt)
  {
    ScanReportKeeps(report, download, stamp);
    var entries := Iterate(Field(report, "files", Null)).value;
    MatchedDocumentsSelects(entries, download);
    var idx := Positions(entries, f => MatchingDocument(f, download));
    assert |idx| > 0;
    assert MatchingDocument(entries[idx[0]], download);
  }

  /** A report with matching documents whose `filed_at` cannot be converted
      to a date (a truthy value that is not a number) raises that error. */
  lemma ScanReportDateRaises(report: Value, download: Download, stamp: Stamp)
    requires Iterate(Field(report, "files", Null)).Ok?
    requires var matched := MatchedDocuments(Iterate(Field(report, "files", Null)).value, download);
             matched.Ok? && |matched.value| > 0
    requires FiledAt(Field(report, "filed_at", Num(0.0)), stamp).Err?
    ensures ScanReport(report, download, stamp) == Err(FiledAt(Field(report, "filed_at", Num(0.0)), stamp).error)
  {
    assert HasKey(report, "files") == Ok(true);
    assert Subscript(report, "files") == Ok(Field(report, "files", Null));
  }

  /** Conversely, a report whose `files` hold a matching document is kept,
      unless reading it raises. */
  lemma ScanReportKeepsMatching(report: Value, download: Download, stamp: Stamp, i: nat)
    requires ScanReport(report, download, stamp).Ok?
    requires Iterate(Field(report, "files", Null)).Ok?
    requires i < |Iterate(Field(report, "files", Null)).value|
    requires MatchingDocument(Iterate(Field(report, "files", Null)).value[i], download)
    ensures ScanReport(report, download, stamp).value.Some?
  {
    var entries := Iterate(Field(report, "files", Null)).value;
    assert HasKey(report, "files") == Ok(true);
    assert Subscript(report, "files") == Ok(Field(report, "files", Null));
    assert MatchedDocuments(entries, download).Ok?;
    MatchedDocumentsSelects(entries, download);
    PositionsComplete(entries, f => MatchingDocument(f, download));
    assert |MatchedDocuments(entries, download).value| > 0;
  }

  /** A kept filing's documents are what the two document loops keep from
      the report's `files`. */
  lemma ScanReportKeeps(report: Value, download: Download, stamp: Stamp)
    requires ScanReport(report, download, stamp).Ok? && ScanReport(report, download, stamp).value.Some?
    ensures report.Obj? && Iterate(Field(report, "files", Null)).Ok?
    ensures MatchedDocuments(Iterate(Field(report, "files", Null)).value, download)
            == Ok(ScanReport(report, download, stamp).value.value.files)
  {
  }

  /** `get_sec_reports`: request the 8-K filings and keep each report that
      has at least one matching `.htm` document. */
  function GetSecReports(symbol: string, startDate: string, endDate: string, exchange: Value,
                         api: Api, download: Download, stamp: Stamp): (r: Result<seq<Filing>, PyError>)
    ensures var data := api(FilingsRequest(symbol, startDate, endDate, exchange, FormType));
            !Truthy(data) || (data.Obj? && Lookup(data.members, "values").None?) ==> r == Ok([])
    ensures var data := api(FilingsRequest(symbol, startDate, endDate, exchange, FormType));
            !data.Obj? && r.Ok? ==> r.value == []
    ensures r.Ok? ==> forall f :: f in r.value ==>
              && |f.files| > 0
              && forall d :: d in f.files ==> EndsWith(d.url, HtmSuffix) && ContentMatches(download, d.url)
  {
    var data := api(FilingsRequest(symbol, startDate, endDate, exchange, FormType));
    if !Truthy(data) then Ok([])
    else
      var present :- HasKey(data, "values");
      if !present then Ok([])
      else
        var values :- Subscript(data, "values");
        // the eager `len(data['values'])` in the log line raises for the same values `Iterate` rejects
        var reports :- Iterate(values);
        var step := report => ScanReport(report, download, stamp);
        SiftOk(reports, step);
        Sift(reports, step)
  }

  /** A report the loop of `get_sec_reports` keeps, and the filing it keeps. */
  predicate Kept(report: Value, download: Download, stamp: Stamp) {
    ScanReport(report, download, stamp).Ok? && ScanReport(report, download, stamp).value.Some?
  }

  function KeptFiling(report: Value, download: Download, stamp: Stamp): Filing {
    if Kept(report, download, stamp) then ScanReport(report, download, stamp).value.value
    else Filing(Null, "", [])
  }

  /** When the response's `values` can be iterated and nothing raises, the
      filings are those of exactly the reports the loop keeps, in response
      order, and no report raised. */
  lemma SecReportsSelects(symbol: string, startDate: string, endDate: string, exchange: Value,
                          api: Api, download: Download, stamp: Stamp)
    requires GetSecReports(symbol, startDate, endDate, exchange, api, download, stamp).Ok?
    requires Iterate(Field(api(FilingsRequest(symbol, startDate, endDate, exchange, FormType)), "values", Null)).Ok?
    ensures var reports := Iterate(Field(api(FilingsRequest(symbol, startDate, endDate, exchange, FormType)), "values", Null)).value;
            && (forall i :: 0 <= i < |reports| ==> ScanReport(reports[i], download, stamp).Ok?)
            && SelectedBy(reports, GetSecReports(symbol, startDate, endDate, exchange, api, download, stamp).value,
                          rep => Kept(rep, download, stamp), rep => KeptFiling(rep, download, stamp))
  {
    var data := api(FilingsRequest(symbol, startDate, endDate, exchange, FormType));
    var reports := Iterate(Field(data, "values", Null)).value;
    assert Truthy(data);
    assert HasKey(data, "values") == Ok(true);
    assert Subscript(data, "values") == Ok(Field(data, "values", Null));
    var step := report => ScanReport(report, download, stamp);
    assert GetSecReports(symbol, startDate, endDate, exchange, api, download, stamp) == Sift(reports, step);
    SiftErr(reports, step);
    forall i | 0 <= i < |reports|
      ensures step(reports[i]) == (if Kept(reports[i], download, stamp) then Ok(Some(KeptFiling(reports[i], download, stamp))) else Ok(None))
    {
    }
    SiftSelects(reports, step, rep => Kept(rep, download, stamp), rep => KeptFiling(rep, download, stamp));
  }

  /** A filings response the script can read without raising: a dict whose
      `values`, when present, is a list of well-formed reports. */
  predicate WellFormedFilings(data: Value) {
    data.Obj? &&
    match Lookup(data.members, "values")
    case Some(values) => values.Arr? && forall i :: 0 <= i < |values.items| ==> WellFormedReport(values.items[i])
    case None => true
  }

  /** A well-formed filings response never raises, whatever the downloads
      return. */
  lemma WellFormedFilingsOk(symbol: string, startDate: string, endDate: string, exchange: Value,
                            api: Api, download: Download, stamp: Stamp)
    requires WellFormedFilings(api(FilingsRequest(symbol, startDate, endDate, exchange, FormType)))
    ensures GetSecReports(symbol, startDate, endDate, exchange, api, download, stamp).Ok?
  {
    var data := api(FilingsRequest(symbol, startDate, endDate, exchange, FormType));
    if Truthy(data) && Lookup(data.members, "values").Some? {
      var reports := Lookup(data.members, "values").value.items;
      var step := report => ScanReport(report, download, stamp);
      forall i | 0 <= i < |reports| ensures step(reports[i]).Ok? {
        WellFormedReportOk(reports[i], download, stamp);
      }
      SiftErr(reports, step);
      assert GetSecReports(symbol, startDate, endDate, exchange, api, download, stamp) == Sift(reports, step);
    }
  }

  /** The content check only ever sees `.htm` URLs: two downloads that agree
      on every URL ending in `.htm` yield the same filing reports. */
  lemma SecReportsFetchOnlyHtm(symbol: string, startDate: string, endDate: string, exchange: Value,
                               api: Api, download1: Download, download2: Download, stamp: Stamp)
    requires forall u :: EndsWith(u, HtmSuffix) ==> download1(u) == download2(u)
    ensures GetSecReports(symbol, startDate, endDate, exchange, api, download1, stamp)
         == GetSecReports(symbol, startDate, endDate, exchange, api, download2, stamp)
  {
    var data := api(FilingsRequest(symbol, startDate, endDate, exchange, FormType));
    if Truthy(data) && HasKey(data, "values") == Ok(true) && Subscript(data, "values").Ok?
       && Iterate(Subscript(data, "values").value).Ok? {
      var reports := Iterate(Subscript(data, "values").value).value;
      forall i | 0 <= i < |reports|
        ensures ScanReport(reports[i], download1, stamp) == ScanReport(reports[i], download2, stamp)
      {
        ScanReportFetchesOnlyHtm(reports[i], download1, download2, stamp);
      }
      SiftCongruent(reports, report => ScanReport(report, download1, stamp), report => ScanReport(report, download2, stamp));
    }
  }

  lemma ScanReportFetchesOnlyHtm(report: Value, download1: Download, download2: Download, stamp: Stamp)
    requires forall u :: EndsWith(u, HtmSuffix) ==> download1(u) == download2(u)
    ensures ScanReport(report, download1, stamp) == ScanReport(report, download2, stamp)
  {
    if HasKey(report, "files") == Ok(true) && Subscript(report, "files").Ok?
       && Iterate(Subscript(report, "files").value).Ok? {
      MatchedDocumentsFetchOnlyHtm(Iterate(Subscript(report, "files").value).value, download1, download2);
    }
  }

  lemma MatchedDocumentsFetchOnlyHtm(entries: seq<Value>, download1: Download, download2: Download)
    requires forall u :: EndsWith(u, HtmSuffix) ==> download1(u) == download2(u)
    ensures MatchedDocuments(entries, download1) == MatchedDocuments(entries, download2)
  {
    if Sift(entries, HtmFile).Ok? {
      var htm := Sift(entries, HtmFile).value;
      HtmFilterKeeps(entries);
      forall i | 0 <= i < |htm| ensures MatchFile(htm[i], download1) == MatchFile(htm[i], download2) {
        MatchFileFetchesOnlyHtm(htm[i], download1, download2);
      }
      SiftCongruent(htm, f => MatchFile(f, download1), f => MatchFile(f, download2));
    }
  }

  /** The `.htm` filter keeps documents unchanged, and only those it accepts. */
  lemma HtmFilterKeeps(entries: seq<Value>)
    requires Sift(entries, HtmFile).Ok?
    ensures var htm := Sift(entries, HtmFile).value;
            forall i :: 0 <= i < |htm| ==> HtmFile(htm[i]) == Ok(Some(htm[i])) && EndsWith(UrlText(htm[i]), HtmSuffix)
  {
    var htm := Sift(entries, HtmFile).value;
    SiftOk(entries, HtmFile);
    forall i | 0 <= i < |htm| ensures HtmFile(htm[i]) == Ok(Some(htm[i])) && EndsWith(UrlText(htm[i]), HtmSuffix) {
      var j :| 0 <= j < |entries| && HtmFile(entries[j]) == Ok(Some(htm[i]));
    }
  }

  /** The content check of an `.htm` document only fetches an `.htm` URL. */
  lemma MatchFileFetchesOnlyHtm(f: Value, download1: Download, download2: Download)
    requires forall u :: EndsWith(u, HtmSuffix) ==> download1(u) == download2(u)
    requires EndsWith(UrlText(f), HtmSuffix)
    ensures MatchFile(f, download1) == MatchFile(f, download2)
  {
    RewriteKeepsHtm(UrlText(f));
  }

  // ---------------------------------------------------------------------------
  // Dividends
  // ---------------------------------------------------------------------------

  /** The comprehension filter of `get_dividends`: `d.get('symbol') == symbol`. */
  function OwnRecord(d: Value, symbol: string): Result<Option<Value>, PyError> {
    var s :- Get(d, "symbol", Null);
    Ok(if s == Str(symbol) then Some(d) else None)
  }

  /** A record of the requested symbol. */
  predicate IsRecordFor(d: Value, symbol: string) {
    d.Obj? && Lookup(d.members, "symbol") == Some(Str(symbol))
  }

  /** The `{ex_date, amount}` projection of a dividend record. */
  function Project(d: Value): Dividend {
    Dividend(Field(d, "ex_date", Str("")), Field(d, "amount", Num(0.0)))
  }

  /** `get_dividends`: only a list response counts; a list element that is not
      an object raises. */
  function GetDividends(symbol: string, startDate: string, endDate: string, exchange: Value, api: Api)
    : (r: Result<seq<Dividend>, PyError>)
    ensures var data := api(DividendsRequest(symbol, startDate, endDate, exchange));
            !data.Arr? ==> r == Ok([])
    ensures var data := api(DividendsRequest(symbol, startDate, endDate, exchange));
            data.Arr? ==> (r.Err? <==> exists i :: 0 <= i < |data.items| && !data.items[i].Obj?)
    ensures var data := api(DividendsRequest(symbol, startDate, endDate, exchange));
            r.Ok? && data.Arr? ==> |r.value| <= |data.items|
  {
    var data := api(DividendsRequest(symbol, startDate, endDate, exchange));
    if !Truthy(data) || !data.Arr? then Ok([])
    else
      var step := d => OwnRecord(d, symbol);
      SiftErr(data.items, step);
      SiftOk(data.items, step);
      var mine :- Sift(data.items, step);
      Ok(seq(|mine|, i requires 0 <= i < |mine| => Project(mine[i])))
  }

  /** On a list response, the dividends are the `{ex_date, amount}`
      projections of exactly the records whose `symbol` is the requested one,
      in response order. */
  lemma DividendsSelects(symbol: string, startDate: string, endDate: string, exchange: Value, api: Api)
    requires GetDividends(symbol, startDate, endDate, exchange, api).Ok?
    requires api(DividendsRequest(symbol, startDate, endDate, exchange)).Arr?
    ensures SelectedBy(api(DividendsRequest(symbol, startDate, endDate, exchange)).items,
                       GetDividends(symbol, startDate, endDate, exchange, api).value,
                       d => IsRecordFor(d, symbol), Project)
  {
    var items := api(DividendsRequest(symbol, startDate, endDate, exchange)).items;
    var keep := d => IsRecordFor(d, symbol);
    var step := d => OwnRecord(d, symbol);
    var r := GetDividends(symbol, startDate, endDate, exchange, api).value;
    forall i | 0 <= i < |items| ensures step(items[i]) == (if keep(items[i]) then Ok(Some(items[i])) else Ok(None)) {
      OwnRecordSelects(items[i], symbol);
    }
    SiftSelects(items, step, keep, d => d);
    var idx := Positions(items, keep);
    if |items| > 0 {
      var mine := Sift(items, step).value;
      assert r == seq(|mine|, i requires 0 <= i < |mine| => Project(mine[i]));
      assert |mine| == |idx| && forall k :: 0 <= k < |mine| ==> mine[k] == items[idx[k]];
    }
    assert |r| == |idx|;
  }

  /** On an object, the filter keeps exactly the records of the symbol. */
  lemma OwnRecordSelects(d: Value, symbol: string)
    requires d.Obj?
    ensures OwnRecord(d, symbol) == if IsRecordFor(d, symbol) then Ok(Some(d)) else Ok(None)
  {
  }

  // ---------------------------------------------------------------------------
  // Per-symbol orchestration and the run
  // ---------------------------------------------------------------------------

  /** `process_symbol`: the metadata, the filings and the dividends must all be
      non-empty; the later requests use the exchange the metadata resolved. */
  function ProcessSymbol(listing: Listing, startDate: string, endDate: string,
                         api: Api, download: Download, stamp: Stamp): (r: Result<Option<SymbolResult>, PyError>)
    ensures var info := GetSymbolInfo(listing.symbol, listing.exchange, api);
            info == Ok(None) ==> r == Ok(None)
    ensures r.Ok? && r.value.Some? <==>
              var info := GetSymbolInfo(listing.symbol, listing.exchange, api);
              && info.Ok? && info.value.Some?
              && var venue := info.value.value.exchange;
                 var reports := GetSecReports(listing.symbol, startDate, endDate, venue, api, download, stamp);
                 var dividends := GetDividends(listing.symbol, startDate, endDate, venue, api);
                 && reports.Ok? && |reports.value| > 0
                 && dividends.Ok? && |dividends.value| > 0
    ensures r.Ok? && r.value.Some? ==>
              var info := GetSymbolInfo(listing.symbol, listing.exchange, api).value.value;
              var result := r.value.value;
              && result.ticker == listing.symbol
              && result.instrumentName == info.name
              && result.exchange == info.exchange
              && Ok(result.secReports) == GetSecReports(listing.symbol, startDate, endDate, info.exchange, api, download, stamp)
              && Ok(result.dividends) == GetDividends(listing.symbol, startDate, endDate, info.exchange, api)
  {
    var info :- GetSymbolInfo(listing.symbol, listing.exchange, api);
    if info.None? then Ok(None)
    else
      var venue := info.value.exchange;
      var reports :- GetSecReports(listing.symbol, startDate, endDate, venue, api, download, stamp);
      if |reports| == 0 then Ok(None)
      else
        var dividends :- GetDividends(listing.symbol, startDate, endDate, venue, api);
        if |dividends| == 0 then Ok(None)
        else Ok(Some(SymbolResult(listing.symbol, info.value.name, venue, dividends, reports)))
  }

  /** The entry a symbol contributes to the output, if any: nothing when its
      processing raises or returns `None`. */
  function Outcome(listing: Listing, startDate: string, endDate: string,
                   api: Api, download: Download, stamp: Stamp): Option<SymbolResult> {
    match ProcessSymbol(listing, startDate, endDate, api, download, stamp)
    case Ok(Some(result)) => Some(result)
    case _ => None
  }

  /** The symbols `main` attempts: the first `limit` when `limit` is positive. */
  function Attempted(symbols: seq<Listing>, limit: int): (a: seq<Listing>)
    ensures limit > 0 ==> |a| <= limit
    ensures 0 < limit < |symbols| ==> |a| == limit
    ensures |a| <= |symbols| && a == symbols[..|a|]
    ensures limit <= 0 || limit >= |symbols| ==> a == symbols
  {
    if limit > 0 && limit < |symbols| then symbols[..limit] else symbols
  }

  /** The processing loop of `main`. A symbol whose processing raises or
      yields nothing counts as failed; otherwise its result is appended. */
  method RunBatch(symbols: seq<Listing>, limit: int, startDate: string, endDate: string,
                  api: Api, download: Download, stamp: Stamp)
    returns (results: seq<SymbolResult>, successful: nat, failed: nat)
    ensures successful + failed == |Attempted(symbols, limit)|
    ensures limit > 0 ==> successful + failed <= limit
    ensures |results| == successful
    ensures var attempted := Attempted(symbols, limit);
            var idx := Positions(attempted, l => Outcome(l, startDate, endDate, api, download, stamp).Some?);
            && |results| == |idx|
            && forall k :: 0 <= k < |results| ==>
                 ProcessSymbol(attempted[idx[k]], startDate, endDate, api, download, stamp) == Ok(Some(results[k]))
  {
    var attempted := Attempted(symbols, limit);
    var outcome := l => Outcome(l, startDate, endDate, api, download, stamp);
    results, successful, failed :=
      Tally(attempted, outcome, l => Outcome(l, startDate, endDate, api, download, stamp).Some?);
  }
}

=== FILE: json.dfy ===
/**
 Decoded JSON as the script sees it after `response.json()`, together with the
 handful of Python operations it applies to such values: truthiness, `k in v`,
 `v[k]`, `v.get(k, d)` and `for x in v`. Each operation returns `Err` with the
 exception Python raises when the value has a shape the operation does not
 accept, so that the callers can model the script's behaviour on any response.
 */
module Json {
  import opened Wrappers
  import Text

  /** The exceptions the modelled code can raise. The run driver catches every
      one of them alike, so the kind only documents which operation failed. */
  datatype PyError = TypeError | AttributeError | KeyError

  /** A decoded JSON value. `Null` is Python's `None`, which is also what the
      request helper returns when a call fails. An object keeps its members in
      document order, the iteration order of a Python dict. */
  datatype Value =
    | Null
    | Bool(b: bool)
    | Num(n: real)
    | Str(s: string)
    | Arr(items: seq<Value>)
    | Obj(members: seq<(string, Value)>)

  /** The value bound to `key`, if any. */
  function Lookup(members: seq<(string, Value)>, key: string): (r: Option<Value>)
    ensures r.Some? <==> exists i :: 0 <= i < |members| && members[i].0 == key
    ensures r.Some? ==> exists i :: 0 <= i < |members| && members[i] == (key, r.value)
  {
    if |members| == 0 then None
    else if members[0].0 == key then Some(members[0].1)
    else
      var r := Lookup(members[1..], key);
      assert forall i :: 0 < i < |members| ==> members[i] == members[1..][i - 1];
      r
  }

  /** Python's `bool(v)`. */
  predicate Truthy(v: Value) {
    match v
    case Null => false
    case Bool(b) => b
    case Num(n) => n != 0.0
    case Str(s) => |s| > 0
    case Arr(items) => |items| > 0
    case Obj(members) => |members| > 0
  }

  /** Python's `key in v` for a string `key`: a key test on a dict, an element
      test on a list, a substring test on a string, a TypeError otherwise. */
  function HasKey(v: Value, key: string): Result<bool, PyError> {
    match v
    case Obj(members) => Ok(Lookup(members, key).Some?)
    case Arr(items) => Ok(Str(key) in items)
    case Str(s) => Ok(Text.Contains(s, key))
    case _ => Err(TypeError)
  }

  /** Python's `v[key]` for a string `key`: only a dict can be indexed by a string. */
  function Subscript(v: Value, key: string): Result<Value, PyError> {
    match v
    case Obj(members) =>
      (match Lookup(members, key)
       case Some(x) => Ok(x)
       case None => Err(KeyError))
    case _ => Err(TypeError)
  }

  /** Python's `v.get(key, default)`: only a dict has a `get` method. */
  function Get(v: Value, key: string, default: Value): Result<Value, PyError> {
    match v
    case Obj(members) => Ok(Lookup(members, key).GetOr(default))
    case _ => Err(AttributeError)
  }

  /** The elements `for x in v` visits: a list's items, a dict's keys, a
      string's one-character strings; a TypeError for anything else. */
  function Iterate(v: Value): Result<seq<Value>, PyError> {
    match v
    case Arr(items) => Ok(items)
    case Obj(members) => Ok(seq(|members|, i requires 0 <= i < |members| => Str(members[i].0)))
    case Str(s) => Ok(seq(|s|, i requires 0 <= i < |s| => Str([s[i]])))
    case _ => Err(TypeError)
  }

  /** A dict member read with a default, for code that has already established
      that `v` is a dict. */
  function Field(v: Value, key: string, default: Value): Value {
    if v.Obj? then Lookup(v.members, key).GetOr(default) else default
  }
}

=== FILE: scenario.dfy ===
/**
 A worked run of one symbol: the metadata names Apple Inc. on NASDAQ, the
 filing archive returns one 8-K filing with one `.htm` document whose page
 mentions a dividend, and the dividends calendar returns one event. The
 symbol then yields one result with one filing and one dividend.
 */
module Scenario {
  import opened Wrappers
  import opened Json
  import opened Text
  import opened Select
  import opened Extract

  const DocUrl := "/ix?doc=/Archives/a8k.htm"
  const ArchiveUrl := "/Archives/a8k.htm"

  const Record := Obj([("name", Str("Apple Inc.")), ("exchange", Str("NASDAQ"))])
  const Document := Obj([("url", Str(DocUrl)), ("type", Str("8-K"))])
  const Report := Obj([("filing_url", Str("https://www.sec.gov/filing")), ("filed_at", Num(1715299200.0)), ("files", Arr([Document]))])
  const Event := Obj([("symbol", Str("AAPL")), ("ex_date", Str("2024-05-10")), ("amount", Num(0.25))])

  function Responses(request: Request): Value {
    match request
    case StocksRequest(_, _) => Obj([("data", Arr([Record]))])
    case FilingsRequest(_, _, _, _, _) => Obj([("values", Arr([Report]))])
    case DividendsRequest(_, _, _, _) => Arr([Event])
  }

  function Pages(url: string): Option<string> {
    if url == ArchiveUrl then Some("The Board declared a quarterly Dividend.") else None
  }

  lemma ViewerUrlRewritten()
    ensures Rewrite(DocUrl) == ArchiveUrl
  {
    var after := "/a8k.htm";
    assert DocUrl == "" + ViewerPath + after;
    RewriteFirstViewerPath("", after);
    assert Rewrite(after) == after;
  }

  lemma PageMatches()
    ensures ContentMatches(Pages, ArchiveUrl)
  {
    var text := "The Board declared a quarterly Dividend.";
    assert text == "The Board declared a quarterly " + "Dividend" + ".";
    assert HasKeyword("Dividend") by {
      assert OccursAt(Lower("Dividend"), Keyword, 0);
    }
    KeywordInContext("The Board declared a quarterly ", "Dividend", ".");
  }

  lemma InfoResolved()
    ensures GetSymbolInfo("AAPL", "NASDAQ", Responses) == Ok(Some(SymbolInfo(Str("Apple Inc."), Str("NASDAQ"))))
  {
  }

  lemma DocumentFields()
    ensures Get(Document, "url", Str("")) == Ok(Str(DocUrl))
    ensures Get(Document, "type", Str("")) == Ok(Str("8-K"))
  {
    var rest := Document.members[1..];
    assert rest == [("type", Str("8-K"))];
    assert "url" != "type";
    assert Lookup(rest, "type") == Some(Str("8-K"));
  }

  lemma EventFields()
    ensures Get(Event, "symbol", Null) == Ok(Str("AAPL"))
    ensures Project(Event) == Dividend(Str("2024-05-10"), Num(0.25))
  {
    assert Event.members[1..] == [("ex_date", Str("2024-05-10")), ("amount", Num(0.25))];
    assert Event.members[1..][1..] == [("amount", Num(0.25))];
  }

  /** The one document passes the `.htm` filter and, rewritten, the content check. */
  lemma DocumentKept()
    ensures Sift([Document], HtmFile) == Ok([Document])
    ensures MatchedDocuments([Document], Pages) == Ok([FilingDocument(ArchiveUrl, Str("8-K"))])
  {
    ViewerUrlRewritten();
    PageMatches();
    DocumentFields();
    assert EndsWith(DocUrl, HtmSuffix);
    SiftSingle(Document, HtmFile);
    assert MatchFile(Document, Pages) == Ok(Some(FilingDocument(ArchiveUrl, Str("8-K"))));
    SiftSingle(Document, f => MatchFile(f, Pages));
  }

  lemma ReportFields()
    ensures HasKey(Report, "files") == Ok(true)
    ensures Subscript(Report, "files") == Ok(Arr([Document]))
    ensures Get(Report, "filed_at", Num(0.0)) == Ok(Num(1715299200.0))
    ensures Get(Report, "filing_url", Str("")) == Ok(Str("https://www.sec.gov/filing"))
  {
    var rest := Report.members[1..];
    assert rest == [("filed_at", Num(1715299200.0)), ("files", Arr([Document]))];
    assert rest[1..] == [("files", Arr([Document]))];
    assert Lookup(rest[1..], "files") == Some(Arr([Document]));
    assert Lookup(rest, "files") == Some(Arr([Document]));
    assert Lookup(rest, "filed_at") == Some(Num(1715299200.0));
  }

  lemma ReportKept(stamp: Stamp)
    ensures ScanReport(Report, Pages, stamp) == Ok(Some(Filing(Str("https://www.sec.gov/filing"), stamp(1715299200.0),
                                                              [FilingDocument(ArchiveUrl, Str("8-K"))])))
  {
    DocumentKept();
    ReportFields();
    assert Iterate(Arr([Document])) == Ok([Document]);
    assert FiledAt(Num(1715299200.0), stamp) == Ok(stamp(1715299200.0));
  }

  lemma OneFiling(stamp: Stamp)
    ensures var r := GetSecReports("AAPL", "2024-01-01", "2024-12-31", Str("NASDAQ"), Responses, Pages, stamp);
            r.Ok? && |r.value| == 1
  {
    ReportKept(stamp);
    SiftSingle(Report, report => ScanReport(report, Pages, stamp));
    var data := Responses(FilingsRequest("AAPL", "2024-01-01", "2024-12-31", Str("NASDAQ"), FormType));
    assert data == Obj([("values", Arr([Report]))]) && Truthy(data);
    assert Subscript(data, "values") == Ok(Arr([Report]));
  }

  lemma OwnEventKept()
    ensures Sift([Event], d => OwnRecord(d, "AAPL")) == Ok([Event])
  {
    EventFields();
    assert OwnRecord(Event, "AAPL") == Ok(Some(Event));
    SiftSingle(Event, d => OwnRecord(d, "AAPL"));
  }

  lemma OneDividend()
    ensures GetDividends("AAPL", "2024-01-01", "2024-12-31", Str("NASDAQ"), Responses)
            == Ok([Dividend(Str("2024-05-10"), Num(0.25))])
  {
    OwnEventKept();
    EventFields();
    var data := Responses(DividendsRequest("AAPL", "2024-01-01", "2024-12-31", Str("NASDAQ")));
    assert data == Arr([Event]) && Truthy(data);
    var mine := [Event];
    var out := seq(|mine|, i requires 0 <= i < |mine| => Project(mine[i]));
    assert out == [Project(Event)];
  }

  /** The symbol yields one result, named and placed as the metadata says,
      with one filing and one dividend. */
  lemma OneSymbolEndToEnd(stamp: Stamp)
    ensures var r := ProcessSymbol(Listing("AAPL", "NASDAQ"), "2024-01-01", "2024-12-31", Responses, Pages, stamp);
            && r.Ok? && r.value.Some?
            && r.value.value.instrumentName == Str("Apple Inc.")
            && r.value.value.exchange == Str("NASDAQ")
            && |r.value.value.secReports| == 1
            && |r.value.value.dividends| == 1
  {
    InfoResolved();
    OneFiling(stamp);
    OneDividend();
  }
}

=== FILE: select.dfy ===
/**
 The one pattern every stage of the script follows: walk a list in order and,
 for each element, keep a (possibly transformed) value, skip it, or raise.
 `Sift` runs such a step over a list exactly as a Python `for` loop or list
 comprehension does, stopping at the first raise. `SelectedBy` is the
 independent description of its result: the projections of precisely the
 elements satisfying a predicate, in input order.
 */
module Select {
  import opened Wrappers

  /** The step applied to each element: `Ok(Some(v))` keeps `v`, `Ok(None)`
      skips the element, `Err(e)` raises `e`. */
  type Step<!T, U, E> = T -> Result<Option<U>, E>

  /** The left-to-right loop: the outcome on `s` is the outcome on all but its
      last element, extended by the step on the last one. */
  function Sift<T, U, E>(s: seq<T>, step: Step<T, U, E>): Result<seq<U>, E>
    decreases |s|
  {
    if |s| == 0 then Ok([])
    else
      match Sift(s[..|s| - 1], step)
      case Err(e) => Err(e)
      case Ok(kept) =>
        match step(s[|s| - 1])
        case Err(e) => Err(e)
        case Ok(None) => Ok(kept)
        case Ok(Some(v)) => Ok(kept + [v])
  }

  /** The loop raises exactly when the step raises on some element, and then
      it raises the error of the first such element. */
  lemma {:induction false} SiftErr<T, U, E>(s: seq<T>, step: Step<T, U, E>)
    ensures Sift(s, step).Err? <==> exists i :: 0 <= i < |s| && step(s[i]).Err?
    ensures Sift(s, step).Err? ==>
              exists i :: 0 <= i < |s| && step(s[i]) == Err(Sift(s, step).error) && forall j :: 0 <= j < i ==> step(s[j]).Ok?
    decreases |s|
  {
    if |s| > 0 {
      var init := s[..|s| - 1];
      assert forall i :: 0 <= i < |init| ==> init[i] == s[i];
      SiftErr(init, step);
    }
  }

  /** A loop that does not raise keeps at most one value per element, and
      every value it keeps is the one the step kept for some element. */
  lemma {:induction false} SiftOk<T, U, E>(s: seq<T>, step: Step<T, U, E>)
    ensures Sift(s, step).Ok? ==> |Sift(s, step).value| <= |s|
    ensures Sift(s, step).Ok? ==>
              forall k :: 0 <= k < |Sift(s, step).value| ==>
                exists i :: 0 <= i < |s| && step(s[i]) == Ok(Some(Sift(s, step).value[k]))
    decreases |s|
  {
    if |s| > 0 {
      var init := s[..|s| - 1];
      assert forall i :: 0 <= i < |init| ==> init[i] == s[i];
      SiftOk(init, step);
    }
  }

  /** Every value the loop keeps has a property `q` when every value the
      step keeps has it. */
  lemma {:induction false} SiftKeeps<T, U, E>(s: seq<T>, step: Step<T, U, E>, q: U -> bool)
    requires Sift(s, step).Ok?
    requires forall i :: 0 <= i < |s| && step(s[i]).Ok? && step(s[i]).value.Some? ==> q(step(s[i]).value.value)
    ensures forall k :: 0 <= k < |Sift(s, step).value| ==> q(Sift(s, step).value[k])
  {
    SiftOk(s, step);
  }

  /** The indices of the elements of `s` satisfying `keep`, in increasing order. */
  function Positions<T>(s: seq<T>, keep: T -> bool): (idx: seq<nat>)
    ensures |idx| <= |s|
    ensures forall k :: 0 <= k < |idx| ==> idx[k] < |s| && keep(s[idx[k]])
    ensures forall k, l :: 0 <= k < l < |idx| ==> idx[k] < idx[l]
    decreases |s|
  {
    if |s| == 0 then []
    else
      var init := s[..|s| - 1];
      assert forall i :: 0 <= i < |init| ==> init[i] == s[i];
      Positions(init, keep) + (if keep(s[|s| - 1]) then [|s| - 1] else [])
  }

  /** Every element satisfying `keep` has its index listed. */
  lemma {:induction false} PositionsComplete<T>(s: seq<T>, keep: T -> bool)
    ensures forall i :: 0 <= i < |s| && keep(s[i]) ==> i in Positions(s, keep)
    decreases |s|
  {
    if |s| > 0 {
      var init := s[..|s| - 1];
      assert forall i :: 0 <= i < |init| ==> init[i] == s[i];
      PositionsComplete(init, keep);
    }
  }

  /** `r` lists `proj(x)` for exactly the elements `x` of `s` with `keep(x)`,
      in the order they occur in `s`. */
  ghost predicate SelectedBy<T, U>(s: seq<T>, r: seq<U>, keep: T -> bool, proj: T -> U) {
    var idx := Positions(s, keep);
    |r| == |idx| && forall k :: 0 <= k < |r| ==> r[k] == proj(s[idx[k]])
  }

  /** A step that never raises on `s`, keeps exactly the elements satisfying
      `keep` and keeps `proj(x)` for each, makes `Sift` return the selection. */
  lemma {:induction false} SiftSelects<T, U, E>(s: seq<T>, step: Step<T, U, E>, keep: T -> bool, proj: T -> U)
    requires forall i :: 0 <= i < |s| ==> step(s[i]) == (if keep(s[i]) then Ok(Some(proj(s[i]))) else Ok(None))
    ensures Sift(s, step).Ok? && SelectedBy(s, Sift(s, step).value, keep, proj)
    decreases |s|
  {
    if |s| > 0 {
      var init := s[..|s| - 1];
      var x := s[|s| - 1];
      assert s == init + [x];
      assert forall i :: 0 <= i < |init| ==> init[i] == s[i];
      SiftSelects(init, step, keep, proj);
      var kept := Sift(init, step).value;
      assert step(x) == if keep(x) then Ok(Some(proj(x))) else Ok(None);
      SiftSnoc(init, x, step);
      SelectedBySnoc(init, x, kept, keep, proj);
    }
  }

  /** The loop over a list extended by one element runs the step on that
      element after the loop over the rest. */
  lemma SiftSnoc<T, U, E>(init: seq<T>, x: T, step: Step<T, U, E>)
    ensures Sift(init + [x], step) == match Sift(init, step)
                                      case Err(e) => Err(e)
                                      case Ok(kept) =>
                                        match step(x)
                                        case Err(e) => Err(e)
                                        case Ok(None) => Ok(kept)
                                        case Ok(Some(v)) => Ok(kept + [v])
  {
    assert (init + [x])[..|init|] == init;
  }

  /** Selecting from a list extended by one element extends the selection by
      that element's projection when it is kept. */
  lemma SelectedBySnoc<T, U>(init: seq<T>, x: T, kept: seq<U>, keep: T -> bool, proj: T -> U)
    requires SelectedBy(init, kept, keep, proj)
    ensures SelectedBy(init + [x], if keep(x) then kept + [proj(x)] else kept, keep, proj)
  {
    var s := init + [x];
    assert s[..|s| - 1] == init;
    var idx := Positions(init, keep);
    var idx' := Positions(s, keep);
    var r := if keep(x) then kept + [proj(x)] else kept;
    if keep(x) {
      assert idx' == idx + [|init|];
    } else {
      assert idx' == idx;
    }
    forall k | 0 <= k < |r| ensures r[k] == proj(s[idx'[k]]) {
      if k < |kept| {
        assert r[k] == kept[k] && idx'[k] == idx[k] && s[idx[k]] == init[idx[k]];
      }
    }
  }

  /** On a one-element list the loop runs the step once. */
  lemma SiftSingle<T, U, E>(x: T, step: Step<T, U, E>)
    ensures Sift([x], step) == match step(x)
                               case Err(e) => Err(e)
                               case Ok(None) => Ok([])
                               case Ok(Some(v)) => Ok([v])
  {
    var s := [x];
    assert s[..0] == [];
    if step(x).Ok? && step(x).value.Some? {
      var none: seq<U> := [];
      assert none + [step(x).value.value] == [step(x).value.value];
    }
  }

  /** Two steps that agree on every element of `s` give the same outcome. */
  lemma {:induction false} SiftCongruent<T, U, E>(s: seq<T>, step1: Step<T, U, E>, step2: Step<T, U, E>)
    requires forall i :: 0 <= i < |s| ==> step1(s[i]) == step2(s[i])
    ensures Sift(s, step1) == Sift(s, step2)
    decreases |s|
  {
    if |s| > 0 {
      var init := s[..|s| - 1];
      assert forall i :: 0 <= i < |init| ==> init[i] == s[i];
      SiftCongruent(init, step1, step2);
    }
  }

  /** The step that first applies the filter `filter` and, on the elements it
      keeps, continues with `step`. */
  function Then<T, U, E>(filter: Step<T, T, E>, step: Step<T, U, E>): Step<T, U, E> {
    x =>
      match filter(x)
      case Err(e) => Err(e)
      case Ok(None) => Ok(None)
      case Ok(Some(_)) => step(x)
  }

  /** Filtering a list and then running a second loop over what is left is the
      same as one loop that applies both steps to each element, provided the
      filter keeps elements unchanged and did not raise. */
  lemma {:induction false} SiftThenSift<T, U, E>(s: seq<T>, filter: Step<T, T, E>, step: Step<T, U, E>)
    requires forall x :: filter(x).Ok? && filter(x).value.Some? ==> filter(x).value.value == x
    requires Sift(s, filter).Ok?
    ensures Sift(Sift(s, filter).value, step) == Sift(s, Then(filter, step))
    decreases |s|
  {
    if |s| > 0 {
      var init := s[..|s| - 1];
      var x := s[|s| - 1];
      assert s == init + [x];
      SiftSnoc(init, x, filter);
      SiftSnoc(init, x, Then(filter, step));
      SiftThenSift(init, filter, step);
      var h := Sift(init, filter).value;
      if filter(x) != Ok(None) {
        assert Sift(s, filter).value == h + [x];
        SiftSnoc(h, x, step);
      }
    }
  }

  /** Runs `outcome` on every element in order, collecting the present
      results and counting the elements with and without one. `succeeds`
      names the elements that have one. It is a parameter rather than the
      lambda `x => outcome(x).Some?` written here because a lambda written
      inside a generic member's contract is a different value from the
      caller's; taking the caller's predicate lets the caller's contract
      name the same positions. */
  method Tally<T, U>(s: seq<T>, outcome: T -> Option<U>, succeeds: T -> bool)
    returns (kept: seq<U>, successes: nat, failures: nat)
    requires forall i :: 0 <= i < |s| ==> succeeds(s[i]) == outcome(s[i]).Some?
    ensures successes + failures == |s|
    ensures |kept| == successes
    ensures var idx := Positions(s, succeeds);
            && |kept| == |idx|
            && forall k :: 0 <= k < |kept| ==> outcome(s[idx[k]]) == Some(kept[k])
  {
    ghost var keep := succeeds;
    kept := [];
    successes := 0;
    failures := 0;
    var i := 0;
    while i < |s|
      invariant 0 <= i <= |s|
      invariant successes == |kept| && successes + failures == i
      invariant var idx := Positions(s[..i], keep);
                && |kept| == |idx|
                && forall k :: 0 <= k < |kept| ==> outcome(s[idx[k]]) == Some(kept[k])
    {
      ghost var idx := Positions(s[..i], keep);
      assert s[..i + 1][..i] == s[..i];
      match outcome(s[i]) {
        case Some(v) =>
          assert Positions(s[..i + 1], keep) == idx + [i];
          kept := kept + [v];
          successes := successes + 1;
        case None =>
          assert Positions(s[..i + 1], keep) == idx;
          failures := failures + 1;
      }
      i := i + 1;
    }
    assert s[..i] == s;
  }
}

=== FILE: text.dfy ===
/**
 The string operations the script applies: `str.strip()`, `str.endswith`,
 the substring test `pat in s`, `str.lower()` and `str.replace`, restricted to
 ASCII where Python's own definition is Unicode-wide.
 */
module Text {

  /** Python's `str.isspace()` on the ASCII range: space, \t \n \v \f \r and
      the four separators \x1c-\x1f. */
  predicate IsSpace(c: char) {
    c == ' ' || 9 <= c as int <= 13 || 28 <= c as int <= 31
  }

  predicate AllSpace(s: string) {
    forall i :: 0 <= i < |s| ==> IsSpace(s[i])
  }

  /** `s` with its leading whitespace removed. */
  function TrimStart(s: string): (r: string)
    ensures |r| <= |s| && r == s[|s| - |r|..]
    ensures AllSpace(s[..|s| - |r|])
    ensures r == [] || !IsSpace(r[0])
    decreases |s|
  {
    if |s| > 0 && IsSpace(s[0]) then
      var r := TrimStart(s[1..]);
      assert s[..|s| - |r|] == [s[0]] + s[1..][..|s[1..]| - |r|];
      r
    else s
  }

  /** `s` with its trailing whitespace removed. */
  function TrimEnd(s: string): (r: string)
    ensures |r| <= |s| && r == s[..|r|]
    ensures AllSpace(s[|r|..])
    ensures r == [] || !IsSpace(r[|r| - 1])
    decreases |s|
  {
    if |s| > 0 && IsSpace(s[|s| - 1]) then
      var r := TrimEnd(s[..|s| - 1]);
      assert s[|r|..] == s[..|s| - 1][|r|..] + [s[|s| - 1]];
      r
    else s
  }

  /** Python's `s.strip()`: the result is the slice of `s` left after removing
      the whitespace run at each end; it neither starts nor ends with whitespace. */
  function Strip(s: string): (r: string)
    ensures exists i :: StripsTo(s, i, r)
    ensures r == [] || (!IsSpace(r[0]) && !IsSpace(r[|r| - 1]))
  {
    var t := TrimStart(s);
    var r := TrimEnd(t);
    var i := |s| - |t|;
    assert s[i..i + |r|] == r;
    assert s[i + |r|..] == t[|r|..];
    assert StripsTo(s, i, r);
    r
  }

  /** `r` is `s[i..i + |r|]` and everything of `s` outside that slice is whitespace. */
  ghost predicate StripsTo(s: string, i: int, r: string) {
    0 <= i <= |s| - |r| && s[i..i + |r|] == r && AllSpace(s[..i]) && AllSpace(s[i + |r|..])
  }

  /** Stripping leaves nothing exactly when the string is all whitespace: the
      script's `if symbol and exchange` test after `.strip()`. */
  lemma StripEmptyIffBlank(s: string)
    ensures Strip(s) == [] <==> AllSpace(s)
  {
    var r := Strip(s);
    var i :| StripsTo(s, i, r);
    if r == [] {
      assert s == s[..i] + s[i..];
      forall k | 0 <= k < |s| ensures IsSpace(s[k]) {
        if k < i { assert s[k] == s[..i][k]; } else { assert s[k] == s[i..][k - i]; }
      }
    } else {
      assert s[i] == r[0];
    }
  }

  predicate EndsWith(s: string, suffix: string) {
    |suffix| <= |s| && s[|s| - |suffix|..] == suffix
  }

  /** Python's `pat in s` on strings: some slice of `s` equals `pat`. */
  predicate Contains(s: string, pat: string) {
    exists i | 0 <= i <= |s| - |pat| :: OccursAt(s, pat, i)
  }

  /** `pat` occurs in `s` starting at index `i`. */
  predicate OccursAt(s: string, pat: string, i: int) {
    0 <= i && i + |pat| <= |s| && s[i..i + |pat|] == pat
  }

  /** An occurrence of `pat` in `x` is also one in `a + x + b`. */
  lemma {:induction false} ContainsInContext(a: string, x: string, b: string, pat: string)
    requires Contains(x, pat)
    ensures Contains(a + x + b, pat)
  {
    var i :| 0 <= i <= |x| - |pat| && OccursAt(x, pat, i);
    var s := a + x + b;
    assert s[|a| + i..|a| + i + |pat|] == x[i..i + |pat|];
    assert OccursAt(s, pat, |a| + i);
  }

  function LowerChar(c: char): char {
    if 'A' <= c <= 'Z' then (c as int + 32) as char else c
  }

  /** Python's `s.lower()` on ASCII letters: no capital letter is left, and
      a character changes only when it is a capital, into its small letter. */
  function Lower(s: string): (r: string)
    ensures |r| == |s|
    ensures forall i :: 0 <= i < |r| ==> !('A' <= r[i] <= 'Z')
    ensures forall i :: 0 <= i < |r| && r[i] != s[i] ==> 'A' <= s[i] <= 'Z' && r[i] as int == s[i] as int + 32
  {
    seq(|s|, i requires 0 <= i < |s| => LowerChar(s[i]))
  }

  /** Lower-casing twice is lower-casing once. */
  lemma LowerIdempotent(s: string)
    ensures Lower(Lower(s)) == Lower(s)
  {
    var r := Lower(s);
    forall i | 0 <= i < |r| ensures Lower(r)[i] == r[i] {
      assert !('A' <= r[i] <= 'Z');
    }
  }

  lemma LowerConcat(a: string, b: string)
    ensures Lower(a + b) == Lower(a) + Lower(b)
  {
  }

  /** Python's `s.replace(pat, rep)`: every non-overlapping occurrence of `pat`,
      scanning left to right, is replaced by `rep`. An empty `pat` inserts `rep`
      before every character and at the end, as Python does. */
  function ReplaceAll(s: string, pat: string, rep: string): string
    decreases |s|
  {
    if |pat| == 0 then
      if |s| == 0 then rep else rep + [s[0]] + ReplaceAll(s[1..], pat, rep)
    else if |s| < |pat| then s
    else if s[..|pat|] == pat then rep + ReplaceAll(s[|pat|..], pat, rep)
    else [s[0]] + ReplaceAll(s[1..], pat, rep)
  }

  /** A string without any occurrence of a non-empty `pat` is left unchanged. */
  lemma {:induction false} ReplaceAllAbsent(s: string, pat: string, rep: string)
    requires |pat| > 0
    requires !Contains(s, pat)
    ensures ReplaceAll(s, pat, rep) == s
    decreases |s|
  {
    if |s| >= |pat| {
      assert s[0..|pat|] == s[..|pat|];
      assert !OccursAt(s, pat, 0);
      if Contains(s[1..], pat) {
        var i :| 0 <= i <= |s[1..]| - |pat| && OccursAt(s[1..], pat, i);
        assert s[i + 1..i + 1 + |pat|] == s[1..][i..i + |pat|];
        assert OccursAt(s, pat, i + 1);
      }
      ReplaceAllAbsent(s[1..], pat, rep);
      assert s == [s[0]] + s[1..];
    }
  }

  /** The first occurrence of a non-empty `pat` (none starts inside `a`) is
      replaced by `rep`, and the scan resumes right after it. */
  lemma {:induction false} ReplaceAllFirst(a: string, pat: string, b: string, rep: string)
    requires |pat| > 0
    requires forall i :: 0 <= i < |a| ==> !OccursAt(a + pat + b, pat, i)
    ensures ReplaceAll(a + pat + b, pat, rep) == a + rep + ReplaceAll(b, pat, rep)
    decreases |a|
  {
    var s := a + pat + b;
    if |a| == 0 {
      assert s == pat + b;
      assert s[..|pat|] == pat;
      assert s[|pat|..] == b;
    } else {
      assert !OccursAt(s, pat, 0);
      assert s[..|pat|] != pat;
      var a' := a[1..];
      var t := a' + pat + b;
      assert s[1..] == t;
      forall i | 0 <= i < |a'| ensures !OccursAt(t, pat, i) {
        assert !OccursAt(s, pat, i + 1);
        assert t[i..i + |pat|] == s[i + 1..i + 1 + |pat|];
      }
      ReplaceAllFirst(a', pat, b, rep);
      assert ReplaceAll(s, pat, rep) == [s[0]] + ReplaceAll(t, pat, rep);
      assert a == [a[0]] + a';
    }
  }
}

=== FILE: wrappers.dfy ===
/**
 Option and Result, the two failure-compatible wrappers the model uses:
 `Option` for Python's `None`-or-value returns, `Result` for a computation
 that may raise a Python exception instead of returning.
 */
module Wrappers {

  datatype Option<+T> = None | Some(value: T) {

    predicate IsFailure() {
      None?
    }

    function PropagateFailure<U>(): Option<U>
      requires None?
    {
      None
    }

    function Extract(): T
      requires Some?
    {
      value
    }

    /** `value` when present, `default` otherwise (Python's `d.get(k, default)`). */
    function GetOr(default: T): T {
      match this
      case Some(v) => v
      case None => default
    }
  }

  datatype Result<+T, +E> = Ok(value: T) | Err(error: E) {

    predicate IsFailure() {
      Err?
    }

    function PropagateFailure<U>(): Result<U, E>
      requires Err?
    {
      Err(error)
    }

    function Extract(): T
      requires Ok?
    {
      value
    }
  }
}
